=== FILE: README.md ===
# sequelize-redis-cache: the read-through cache session, modelled in Dafny

`lib/index.js` defines `Cacher`, a session object that sits in front of a
Sequelize model (or a raw SQL query) and a redis store. A call derives a cache
key from the call's identity, GETs it, and either decodes the stored JSON (a
hit) or runs the query, normalises the result, SETs it with an optional `EX`
expiry and returns it (a miss). `clearCache` derives the same key and DELs it.
Ten retrieval shortcuts (`find`, `findOne`, ..., `count`) select the method and run.

The model keeps the session as an immutable record and every operation as a
pure step function returning `Step(outcome, session, store, trace)`:

- the store is a `map<string, string>`; the trace lists the effects the call
  caused (GET, SET with its argument vector, DEL, model call, raw query), so
  "the database was not consulted" and "nothing was written" can be stated;
- SHA-1, `CircularJSON.stringify`, `JSON.stringify` and `JSON.parse` are
  function-valued fields of a `Codec` (an exception is `None`); the model
  registry, the methods a model has, model calls and raw queries are fields of
  a `Db`; the error each redis command reports during a call is a `Faults` record;
- an outcome is `Resolved`, `Rejected`, or `Raised`. `Raised` is an exception
  outside any promise: either thrown synchronously at the call site, so no promise
  is returned at all, or thrown inside the redis GET callback, so the promise
  already returned never settles.

Files: `wrappers.dfy` (Option/Result), `values.dfy` (JavaScript values,
truthiness, `jsonReplacer`), `segments.dfy` (`join(':')` and splitting a key
back), `normalize.dfy` (result normalisation), `store.dfy` (the redis SET
argument vector), `cacher.dfy` (session and steps), `properties.dfy` (protocol
properties).

Behaviour of the code that the model keeps, and that a reader might not expect:

- The hit flag is not reset at the start of every read. Only the model-path miss
  clears it (lib/index.js:130), after the method lookup. The raw path never clears
  it, and a hit sets it before decoding, so it stays set when decoding fails.
- `Model not set` comes only from the shortcuts (lib/index.js:264-266). Calling
  `run` directly with no model bound throws a TypeError inside the GET callback on a
  miss (lib/index.js:128). That is the `Raised(NoModelBound)` outcome.
- The call is rejected with `Invalid method - <name>` when the bound model lacks
  the selected method (lib/index.js:132-134). Calling a name that is neither one of
  the ten shortcuts nor another member of a session (`run`, `query`, `key`,
  `clearCache`, ..., or an `Object.prototype` method) is a synchronous TypeError
  (`Raised(NotAFunction(name))`).
- Any truthy (nonzero) TTL is forwarded as `EX`, negative ones included
  (lib/index.js:178-180). Redis refuses a non-positive `EX`, so a miss with a
  negative TTL fails after querying the database, and nothing is cached.
- Empty results (`null` for "not found") are cached like any other result.
- Only a single instance is normalised into plain data. Results whose instances sit inside an array or object
  (`findAll`, `findAndCountAll`) are cached as they are (lib/index.js:140-141), so a miss returns live
  instances (lib/index.js:150) but a later hit returns JSON.parse's plain data (lib/index.js:224).

## Model

| member | source | states |
|---|---|---|
| Values.Replace | lib/index.js:244-257 | the replacer turns a model class into its name, keeps the length of arrays and the keys (and their order) of objects, and leaves scalars, `null` and `undefined` as they are |
| Values.ReplaceIsPlain | lib/index.js:252-257 | after the replacer (and `toJSON`), no model class or instance is left anywhere in the options handed to the serializer |
| Values.ReplaceKeepsPlain | lib/index.js:252-257 | the replacer leaves options that hold no model class or instance exactly as they are |
| Values.ReplaceIdempotent | lib/index.js:252-257 | applying the replacer a second time changes nothing |
| Segments.Split | lib/index.js:241 | splitting a key on ':' gives at least one segment, and no segment contains ':' |
| Segments.SplitJoin | lib/index.js:241 | splitting a `join(':')` of ':'-free segments gives back exactly those segments |
| Segments.JoinInjective | lib/index.js:246 | two joins of ':'-free segment lists are equal only when the lists are equal |
| Segments.JoinThirdCancels | lib/index.js:246 | equal four-segment joins that agree in the other segments agree in the third, whatever the segments contain |
| Segments.PeelLast | lib/index.js:246 | two strings that each end in ':' and a ':'-free segment are equal only when both the segments and what precedes them are |
| Segments.JoinFourPeel | lib/index.js:246 | equal four-segment joins whose last three segments contain no ':' agree in every segment, whatever ':' the first segments hold |
| Segments.JoinThirdDistinct | lib/index.js:246 | four-segment joins that agree in all but the third segment are equal exactly when the third segments are, whatever the segments contain |
| Normalizer.Normalize | lib/index.js:91-99 | a model instance becomes its plain form; every other value (absent, array, scalar, plain object) is returned unchanged, and only instances change |
| Normalizer.NormalizeIdempotent | lib/index.js:138-146 | normalising an already-normalised result changes nothing, unless an instance wrapped another instance |
| Normalizer.NormalizeKeepsSerializedView | lib/index.js:95-96 | normalising a value does not change the view key derivation (`toJSON` and the replacer) would take of it; nothing is claimed about the cached JSON text |
| Store.ApplySet | lib/index.js:182-187 | redis accepts a SET exactly when it can read the argument vector and any `EX` is positive, and then maps the key to the value |
| Store.SetArgs | lib/index.js:177-180 | redis reads the argument vector as a SET of the key to the text, with an `EX` expiry of the TTL exactly when the TTL is nonzero |
| Cacher.Key | lib/index.js:235-247 | key derivation fails only without a raw query and only when serialising the replaced options throws, and then with a serialisation error |
| Cacher.SetCache | lib/index.js:166-189 | success exactly when encoding works, the TTL is not negative and SET reports no error; a negative TTL is refused by redis; success stores the encoded text under the key; an encoding failure fails before any SET; a SET error fails and leaves the store as it was |
| Cacher.Settle | lib/index.js:89-112 | after a query answer, the session is unchanged, the call is the first effect, a failure writes nothing and only the key may change |
| Cacher.FetchFromDatabase | lib/index.js:127-161 | the model-path database step changes the session at most by clearing the hit flag, writes nothing when it fails and at most the key otherwise |
| Cacher.RawFromDatabase | lib/index.js:85-114 | the raw-path database step leaves the session (and the hit flag) unchanged, writes nothing when it fails and at most the key otherwise |
| Cacher.ReadThrough | lib/index.js:211-230 | a read changes only the hit flag and keeps the session well formed; the raw path never clears the flag; a failure writes nothing; the GET of the derived key comes first and only that key may change; a key failure or a GET error fails before the database and changes nothing |
| Cacher.RawFromCache | lib/index.js:61-80 | `rawFromCache()` changes only the hit flag, which ends up set exactly when it was set before or this read hit; a hit never reaches the database and writes nothing |
| Cacher.New | lib/index.js:12-23 | a new session has method `find`, empty options, no TTL, no hit, prefix `cacher`, no model and no raw query |
| Cacher.SetPrefix | lib/index.js:37-40 | `prefix(p)` sets the key prefix to p, changes nothing else and keeps the session well formed |
| Cacher.SetTtl | lib/index.js:119-122 | `ttl(seconds)` sets the TTL to seconds, changes nothing else and keeps the session well formed |
| Cacher.SelectModel | lib/index.js:28-32 | `model(name)` records the name, binds a model exactly when the registry has one under that name, keeps the session well formed and changes nothing else |
| Cacher.Run | lib/index.js:45-48 | `run(options)` sets the options to `options || this.options`, changes nothing else but the hit flag, writes nothing when it fails and keeps the session well formed |
| Cacher.Query | lib/index.js:53-56 | `query(q)` records q, changes nothing else but the hit flag, never clears the flag, writes nothing when it fails, and with a non-empty q first GETs the raw-query key |
| Cacher.Invoke | lib/index.js:262-285 | a name that is no member of the session raises and changes nothing; a shortcut without a model rejects with `Model not set` and changes nothing; a shortcut with a model sets the method to its name and the options to `arg || this.options`, writes nothing on failure and keeps the session well formed |
| Cacher.ClearCache | lib/index.js:194-206 | invalidation never reaches the database, replaces the options only when given truthy ones, and writes nothing when it fails |
| CacherProperties.KeySegmentsRaw | lib/index.js:237-241 | with a raw query set and a prefix that contains no ':', the key splits into the prefix, `__raw__`, `query` and the digest of the query |
| CacherProperties.KeySegmentsModel | lib/index.js:243-246 | without a raw query, and when the prefix, model name and method contain no ':', the key splits into the prefix, the model name, the method and the digest of the serialised options |
| CacherProperties.RawAndModelKeysDiffer | lib/index.js:235-247 | a raw-query key and a model key never coincide unless the model is named `__raw__`, for every prefix, `app:cache` included, when the model name and method contain no ':' |
| CacherProperties.ModelKeysInjective | lib/index.js:243-246 | equal model keys have the same prefix, model name and method, and equal option digests, for every prefix, `app:cache` included, when the model names and methods contain no ':' |
| CacherProperties.KeyDependsOnlyOnIdentity | lib/index.js:235-247 | the key depends on prefix and raw query and, without a raw query, on model name, method and the replaced options only; options differing only in the model class objects they hold give the same key |
| CacherProperties.QueryTakesPriority | lib/index.js:53-56 | once `query` has set a non-empty raw query, every later `run` GETs the raw-query key, whatever its options |
| CacherProperties.HitServesStoredValue | lib/index.js:219-227 | on a hit (non-empty stored text) either path returns the decoded text or a decode error, sets the flag in both cases, never reaches the database and leaves the store unchanged |
| CacherProperties.ModelMissPopulates | lib/index.js:127-161 | a model-path miss with a successful query and a TTL that is not negative stores the encoded normalised result under the key, with `EX` exactly when the TTL is nonzero, returns the normalised result and clears the flag |
| CacherProperties.RawMissPopulates | lib/index.js:85-114 | a raw-path miss with a TTL that is not negative stores and returns the normalised rows and leaves the session, including the flag, untouched |
| CacherProperties.PathsNormaliseAlike | lib/index.js:89-112 | for the same answer, the raw and the model path give the same outcome, store and effects after the query |
| CacherProperties.GetErrorFails | lib/index.js:215-218 | a GET error rejects with that error, never reaches the database and changes neither session nor store |
| CacherProperties.InvalidMethodFails | lib/index.js:128-134 | a miss on a model lacking the method rejects with `Invalid method - <name>`, writes nothing, does not query, and leaves the flag cleared |
| CacherProperties.QueryErrorDoesNotPopulate | lib/index.js:156-159 | a failing query on either path rejects with the query error and writes nothing |
| CacherProperties.EncodeErrorPrecedesWrite | lib/index.js:171-175 | when the result cannot be encoded, the call rejects with a serialisation error and no SET is sent |
| CacherProperties.SetErrorFailsCall | lib/index.js:147-154 | a SET error rejects the call although the database was queried, and the store is unchanged |
| CacherProperties.NegativeTtlRejected | lib/index.js:178-186 | a miss with a negative TTL queries the database, has its `EX` refused by redis, rejects with that error and caches nothing |
| CacherProperties.KeyNamesQueriedModel | lib/index.js:128-135 | on a well-formed session, and when the prefix, model name and method contain no ':', the model a model-path miss queries, and the method it calls, are the second and third segments of the key it caches under |
| CacherProperties.UnboundRunRaises | lib/index.js:127-128 | `run` with no model bound raises on a miss, never settles, keeps the flag and writes nothing |
| CacherProperties.ModelFlagReflectsRead | lib/index.js:130 | with a model bound and a successful GET, the flag after a model-path read is true exactly when it hit |
| CacherProperties.RawMissKeepsStaleFlag | lib/index.js:69-70 | a raw-path miss after an earlier hit still reports a hit |
| CacherProperties.ClearCacheRemovesKey | lib/index.js:194-206 | a successful `clearCache` removes exactly the derived key, keeps every other entry, and succeeds when the key is absent |
| CacherProperties.ClearCacheOptions | lib/index.js:196 | `clearCache(opts)` replaces the options only when `opts` is truthy and otherwise leaves the session as it was |
| CacherProperties.ClearCacheIdempotent | lib/index.js:194-206 | a second `clearCache` after a successful one succeeds and changes nothing |
| CacherProperties.ClearAfterQuery | lib/index.js:194-206 | after `query(q)` and `clearCache()` on the same session, the raw-query key is absent from the store |
| CacherProperties.ShortcutWithoutModel | lib/index.js:263-266 | a shortcut with no model bound rejects with `Model not set`, with no effects and no change of session or store |
| CacherProperties.ShortcutRuns | lib/index.js:267-268 | with a model bound, a shortcut is `run` with the method set to its own name and its argument as options |
| CacherProperties.UnknownShortcut | lib/index.js:272-285 | a name that is neither one of the ten retrieval methods nor another member of a session is no function: calling it raises and changes nothing |
| CacherProperties.ShortcutsHaveNoSep | lib/index.js:272-283 | none of the ten shortcut names contains the key separator ':' |
| CacherProperties.ShortcutKeySegments | lib/index.js:267-283 | without a raw query, and with a prefix and model name free of ':', the key a shortcut GETs splits into the prefix, the model name, the shortcut's own name and the digest of the options |
| CacherProperties.ShortcutsReadDistinctKeys | lib/index.js:262-283 | without a raw query, two different shortcuts on the same session GET different keys, for every prefix, model name and hash, so one method's cached result is never served to another |
| CacherProperties.RunKeepsOptions | lib/index.js:45-48 | `run()` without options reads through with the options already set |
| CacherProperties.OperationsPreserveWf | lib/index.js:12-40 | a new session has no hit and no raw query, and configuration, `run`, `query`, `clearCache` and the shortcuts keep the bound model the one the model name names |
| CacherProperties.MissAndHitDiffer | lib/index.js:140-141 | when the normalised result still holds instances (the array `findAll` returns) and JSON.parse only gives plain data, the miss returns the live result and the identical call that then hits returns something else |
| CacherProperties.MissThenHit | test/sequelize-redis-cache.test.js:76-94 | an identical second call after a miss hits, returns the same value and does not reach the database, given that the normalised result is plain data (no instance inside an array or object) and parsing the stored text gives it back |

## Left out

- SHA-1 is an opaque function; only its hex output (no ':') is assumed, and no collision resistance.
- `CircularJSON.stringify` and JSON encoding and decoding are opaque functions. Cycles cannot be built from Dafny datatypes, so the circular-include case is not modelled.
- `MissThenHit` assumes, as preconditions, that the normalised result is plain data and that JSON.parse inverts JSON.stringify for it. Nothing more is assumed about the codec. `MissAndHitDiffer` covers results that still hold instances.
- The replacer's duck test also catches plain objects that carry a truthy `DAO` or `sequelize` property. The model recognises model classes only through their own variant.
- Numbers are integers, so NaN (falsy) and fractional TTLs are not modelled.
- The model does not cover a result whose `toString()` throws, or the not-settling promise that would follow.
- Redis is a map with per-call injected errors, plus its own refusal of unreadable SETs and of non-positive `EX`. Key expiry over time is not modelled.
- Bluebird promises and callbacks are replaced by synchronous steps. Concurrent sessions racing on one key are out of scope: each step runs alone.
- Model lookup via `sequelize.model(name)` is reduced to whether a model is bound. The model assumes the lookup returns a falsy value for an unknown name rather than throwing, so `md` ends up unset while `modelName` is still recorded.
- `addMethod` patches the prototype at load time. It is modelled as a fixed list of ten names and one dispatch function, `Invoke`.
- Cacher.Invoke: it covers the shortcut names and names the session has no member for. A call through another member's name (`run`, `query`, `clearCache`, `key`, ...) is that member's own operation. `Run`, `Query` and `ClearCache` model the ones that read or write; the rest (`key`, `setCache`, the configuration setters, `Object.prototype` methods) are not dispatched by name.
- The test suite calls `cacher('entity')`, an API this `lib/index.js` does not export. Its cases are used only as expected behaviour.

=== FILE: cacher.dfy ===
/**
 * The cache session (`Cacher` in lib/index.js) as an immutable record and
 * its operations as pure step functions. A step takes the session, the
 * redis store and an environment of oracles, and returns the call's outcome,
 * the new session, the new store and the trace of external effects it caused.
 */
module Cacher {
  import opened Wrappers
  import opened Values
  import opened Segments
  import opened Store
  import opened Normalizer

  /** The fields of a `Cacher` object. */
  datatype Session = Session(
    methodName: string,
    options: Value,
    seconds: int,                // TTL; 0 means no expiry
    cacheHit: bool,
    prefix: string,
    md: Option<string>,          // the bound model, known by the name it was bound under
    modelName: Option<string>,
    q: Option<string>)           // the raw query text, once `query` has been called

  /** A bound model is always the one `modelName` names. */
  predicate Wf(s: Session) {
    s.md.Some? ==> s.md == s.modelName
  }

  /** `new Cacher(seq, red)`: method `find`, empty options, no TTL, no hit, prefix `cacher`. */
  function New(): (s: Session)
    ensures Wf(s) && !s.cacheHit && !RawActive(s) && s.md.None? && s.modelName.None?
    ensures s.methodName == "find" && s.options == Obj([]) && s.seconds == 0 && s.prefix == "cacher"
  {
    Session("find", Obj([]), 0, false, "cacher", None, None, None)
  }

  /** Hashing and (de)serialisation, as opaque functions; `None` stands for a thrown exception. */
  datatype Codec = Codec(
    sha1: string -> string,               // hex digest
    stringify: Value -> Option<string>,   // CircularJSON.stringify, given the replaced value
    encode: Value -> Option<string>,      // JSON.stringify
    parse: string -> Option<Value>)       // JSON.parse

  /** A hex digest never contains the key separator. */
  ghost predicate HexDigests(c: Codec) {
    forall t :: NoSep(c.sha1(t))
  }

  /** The Sequelize side: the model registry, the methods models have, and the queries. */
  datatype Db = Db(
    defines: string -> bool,                              // `sequelize.model(name)` yields a model
    has: (string, string) -> bool,                        // `md[method]` is truthy
    call: (string, string, Value) -> Result<Value, string>, // `md[method](options)`
    query: Option<string> -> Result<Value, string>)       // `sequelize.query(q, {type: SELECT})`

  /** The error (if any) each redis command reports during one call. */
  datatype Faults = Faults(getError: Option<string>, setError: Option<string>, delError: Option<string>)

  const NoFaults := Faults(None, None, None)

  datatype Env = Env(codec: Codec, db: Db, faults: Faults)

  datatype Error =
    | StoreError(reason: string)    // a redis command reported an error
    | SerializeError                // CircularJSON.stringify or JSON.stringify threw
    | DecodeError                   // JSON.parse threw on the stored text
    | QueryError(reason: string)    // the database rejected the query
    | InvalidMethod(methodName: string) // the bound model has no such method
    | ModelNotSet                   // a shortcut was called before `model`
    | NoModelBound                  // TypeError: reading a method of an unbound model
    | NotAFunction(name: string)    // TypeError: no shortcut of that name exists

  function Message(e: Error): string {
    match e
    case StoreError(m) => m
    case SerializeError => "stringify threw"
    case DecodeError => "JSON.parse threw"
    case QueryError(m) => m
    case InvalidMethod(m) => "Invalid method - " + m
    case ModelNotSet => "Model not set"
    case NoModelBound => "TypeError: the bound model is undefined"
    case NotAFunction(n) => "TypeError: " + n + " is not a function"
  }

  /**
   * How a call ends: its promise resolves, its promise rejects, or an
   * exception escapes the promise machinery (thrown at the call site or inside
   * a redis callback), so the promise never settles.
   */
  datatype Outcome = Resolved(value: Value) | Rejected(error: Error) | Raised(error: Error)

  datatype Effect =
    | Get(key: string)
    | Set(args: seq<Arg>)
    | Del(key: string)
    | CallModel(model: string, methodName: string, options: Value)
    | RawQuery(q: Option<string>)

  predicate IsQuery(e: Effect) {
    e.CallModel? || e.RawQuery?
  }

  /** The call reached the database. */
  predicate Queries(trace: seq<Effect>) {
    exists i :: 0 <= i < |trace| && IsQuery(trace[i])
  }

  datatype Step = Step(outcome: Outcome, session: Session, store: Store, trace: seq<Effect>)

  /** The result of `setCache`. */
  datatype Write = Write(result: Result<(), Error>, store: Store, trace: seq<Effect>)

  // ---------------------------------------------------------------- configuration

  /**
   * `model(name)`: binds the model the registry returns for `name` (none when
   * it returns nothing) and records the name; nothing else changes.
   */
  function SelectModel(s: Session, name: string, db: Db): (r: Session)
    ensures r.modelName == Some(name)
    ensures r.md.Some? <==> db.defines(name)
    ensures Wf(r)
    ensures r == s.(md := r.md, modelName := r.modelName)
  {
    s.(md := if db.defines(name) then Some(name) else None, modelName := Some(name))
  }

  /** `prefix(p)` */
  function SetPrefix(s: Session, p: string): (r: Session)
    ensures r.prefix == p
    ensures r == s.(prefix := r.prefix)
    ensures Wf(s) ==> Wf(r)
  {
    s.(prefix := p)
  }

  /** `ttl(seconds)` */
  function SetTtl(s: Session, seconds: int): (r: Session)
    ensures r.seconds == seconds
    ensures r == s.(seconds := r.seconds)
    ensures Wf(s) ==> Wf(r)
  {
    s.(seconds := seconds)
  }

  // ---------------------------------------------------------------- key derivation

  /** `if (this.q)`: a raw query is set and is not the empty string. */
  predicate RawActive(s: Session) {
    s.q.Some? && s.q.value != ""
  }

  /** How `Array.join` renders a possibly undefined model name. */
  function NameText(n: Option<string>): string {
    if n.Some? then n.value else ""
  }

  /** The segments of a raw-query key. */
  function RawParts(s: Session, c: Codec): seq<string>
    requires RawActive(s)
  {
    [s.prefix, "__raw__", "query", c.sha1(s.q.value)]
  }

  /** The segments of a model key, given the serialised options. */
  function ModelParts(s: Session, c: Codec, serialized: string): seq<string> {
    [s.prefix, NameText(s.modelName), s.methodName, c.sha1(serialized)]
  }

  /** `key()`: the raw query, when set, decides the key; otherwise model, method and options do. */
  function Key(s: Session, c: Codec): (r: Result<string, Error>)
    ensures r.Failure? <==> !RawActive(s) && c.stringify(Replace(s.options)).None?
    ensures r.Failure? ==> r.error == SerializeError
  {
    if RawActive(s) then Success(Join(RawParts(s, c)))
    else match c.stringify(Replace(s.options))
      case None => Failure(SerializeError)
      case Some(t) => Success(Join(ModelParts(s, c, t)))
  }

  // ---------------------------------------------------------------- store writes

  /** `setCache(key, results, ttl)` */
  function SetCache(store: Store, key: string, results: Value, ttl: int, env: Env): (w: Write)
    ensures w.result.Success? <==> env.codec.encode(results).Some? && env.faults.setError.None? && ttl >= 0
    ensures w.result.Success? ==> w.store == store[key := env.codec.encode(results).value]
    ensures w.result.Failure? ==> w.store == store
    ensures env.codec.encode(results).None? ==> w.result == Failure(SerializeError) && w.trace == []
    ensures env.codec.encode(results).Some? ==>
              w.trace == [Set(SetArgs(key, env.codec.encode(results).value, ttl))]
    ensures env.codec.encode(results).Some? && env.faults.setError.Some? ==>
              w.result == Failure(StoreError(env.faults.setError.value))
    ensures env.codec.encode(results).Some? && env.faults.setError.None? && ttl < 0 ==>
              w.result == Failure(StoreError(InvalidExpire))
  {
    match env.codec.encode(results)
    case None => Write(Failure(SerializeError), store, [])
    case Some(text) =>
      var args := SetArgs(key, text, ttl);
      if env.faults.setError.Some? then Write(Failure(StoreError(env.faults.setError.value)), store, [Set(args)])
      else match ApplySet(store, args)
        case Failure(reply) => Write(Failure(StoreError(reply)), store, [Set(args)])
        case Success(store') => Write(Success(()), store', [Set(args)])
  }

  // ---------------------------------------------------------------- read-through

  /** What both database paths do with the query's answer: normalise, cache, resolve. */
  function Settle(answer: Result<Value, string>, s: Session, store: Store, key: string, env: Env,
                  call: Effect): (r: Step)
    ensures r.session == s
    ensures !r.outcome.Resolved? ==> r.store == store
    ensures r.store - {key} == store - {key}
    ensures |r.trace| >= 1 && r.trace[0] == call
  {
    match answer
    case Failure(e) => Step(Rejected(QueryError(e)), s, store, [call])
    case Success(raw) =>
      var res := Normalize(raw);
      var w := SetCache(store, key, res, s.seconds, env);
      Step(if w.result.Success? then Resolved(res) else Rejected(w.result.error), s, w.store, [call] + w.trace)
  }

  /** `fetchFromDatabase(key)`: look the method up on the bound model, reset the flag, query. */
  function FetchFromDatabase(s: Session, store: Store, key: string, env: Env): (r: Step)
    ensures r.session == s || r.session == s.(cacheHit := false)
    ensures !r.outcome.Resolved? ==> r.store == store
    ensures r.store - {key} == store - {key}
  {
    match s.md
    case None => Step(Raised(NoModelBound), s, store, [])
    case Some(m) =>
      var s' := s.(cacheHit := false);
      if !env.db.has(m, s.methodName) then Step(Rejected(InvalidMethod(s.methodName)), s', store, [])
      else Settle(env.db.call(m, s.methodName, s.options), s', store, key, env, CallModel(m, s.methodName, s.options))
  }

  /** `rawFromDatabase(key)`: run the raw query; the hit flag is left as it is. */
  function RawFromDatabase(s: Session, store: Store, key: string, env: Env): (r: Step)
    ensures r.session == s
    ensures !r.outcome.Resolved? ==> r.store == store
    ensures r.store - {key} == store - {key}
  {
    Settle(env.db.query(s.q), s, store, key, env, RawQuery(s.q))
  }

  datatype Path = ModelPath | RawPath

  /**
   * `fetchFromCache` (model path) and `rawFromCache` (raw path): derive the
   * key, GET it, decode a hit or fall through to the database on a miss.
   */
  function ReadThrough(s: Session, store: Store, env: Env, path: Path): (r: Step)
    ensures Wf(s) ==> Wf(r.session)
    ensures r.session == s.(cacheHit := r.session.cacheHit)
    ensures path == RawPath && s.cacheHit ==> r.session.cacheHit
    ensures !r.outcome.Resolved? ==> r.store == store
    ensures Key(s, env.codec).Failure? ==> r == Step(Rejected(SerializeError), s, store, [])
    ensures Key(s, env.codec).Success? ==>
              var k := Key(s, env.codec).value;
              && |r.trace| >= 1 && r.trace[0] == Get(k)
              && r.store - {k} == store - {k}
    ensures env.faults.getError.Some? ==> r.store == store && r.session == s && !Queries(r.trace)
  {
    match Key(s, env.codec)
    case Failure(e) => Step(Rejected(e), s, store, [])
    case Success(k) =>
      if env.faults.getError.Some? then
        Step(Rejected(StoreError(env.faults.getError.value)), s, store, [Get(k)])
      else if Miss(store, k) then
        var r := if path == ModelPath then FetchFromDatabase(s, store, k, env)
                 else RawFromDatabase(s, store, k, env);
        r.(trace := [Get(k)] + r.trace)
      else
        var s' := s.(cacheHit := true);
        match env.codec.parse(store[k])
        case None => Step(Rejected(DecodeError), s', store, [Get(k)])
        case Some(v) => Step(Resolved(v), s', store, [Get(k)])
  }

  /** `fetchFromCache()`: the read-through on the model path. */
  function FetchFromCache(s: Session, store: Store, env: Env): Step {
    ReadThrough(s, store, env, ModelPath)
  }

  /**
   * `rawFromCache()`: the read-through on the raw-query path. The flag ends
   * up set exactly when it was already set or this read hit; a hit never
   * reaches the database.
   */
  function RawFromCache(s: Session, store: Store, env: Env): (r: Step)
    ensures r.session == s.(cacheHit := r.session.cacheHit)
    ensures var hit := Key(s, env.codec).Success? && env.faults.getError.None?
                       && !Miss(store, Key(s, env.codec).value);
            && (r.session.cacheHit <==> s.cacheHit || hit)
            && (hit ==> !Queries(r.trace) && r.store == store)
  {
    ReadThrough(s, store, env, RawPath)
  }

  // ---------------------------------------------------------------- entry points

  /** `run(options)`: a falsy argument keeps the previous options. */
  function Run(s: Session, options: Value, store: Store, env: Env): (r: Step)
    ensures r.session.options == Or(options, s.options)
    ensures r.session == s.(options := Or(options, s.options), cacheHit := r.session.cacheHit)
    ensures !r.outcome.Resolved? ==> r.store == store
    ensures Wf(s) ==> Wf(r.session)
  {
    FetchFromCache(s.(options := Or(options, s.options)), store, env)
  }

  /** `query(q)`: record the raw query and read through the raw path. */
  function Query(s: Session, q: string, store: Store, env: Env): (r: Step)
    ensures r.session.q == Some(q)
    ensures r.session == s.(q := Some(q), cacheHit := r.session.cacheHit)
    ensures s.cacheHit ==> r.session.cacheHit
    ensures !r.outcome.Resolved? ==> r.store == store
    ensures q != "" ==>
              |r.trace| >= 1 && r.trace[0] == Get(Join([s.prefix, "__raw__", "query", env.codec.sha1(q)]))
  {
    RawFromCache(s.(q := Some(q)), store, env)
  }

  /** `clearCache(opts)`: derive the key (after a truthy `opts` replaced the options) and DEL it. */
  function ClearCache(s: Session, opts: Value, store: Store, env: Env): (r: Step)
    ensures r.session == s.(options := Or(opts, s.options))
    ensures !Queries(r.trace)
    ensures !r.outcome.Resolved? ==> r.store == store
  {
    var s' := s.(options := Or(opts, s.options));
    match Key(s', env.codec)
    case Failure(e) => Step(Rejected(e), s', store, [])
    case Success(k) =>
      if env.faults.delError.Some? then Step(Rejected(StoreError(env.faults.delError.value)), s', store, [Del(k)])
      else Step(Resolved(Undefined), s', store - {k}, [Del(k)])
  }

  /** The retrieval methods `addMethod` installs as shortcuts. */
  const Shortcuts: seq<string> :=
    ["find", "findOne", "findAll", "findAndCount", "findAndCountAll", "all", "min", "max", "sum", "count"]

  /**
   * Every other callable member of a session: the methods lib/index.js puts on
   * `Cacher.prototype` besides the shortcuts, and those every object inherits
   * from `Object.prototype`. Calling one of these by name reaches that member,
   * which is not a shortcut.
   */
  const SessionMembers: set<string> := {
    "constructor", "model", "prefix", "run", "query", "rawFromCache", "rawFromDatabase", "ttl",
    "fetchFromDatabase", "setCache", "clearCache", "fetchFromCache", "key",
    "toString", "toLocaleString", "valueOf", "hasOwnProperty", "isPrototypeOf",
    "propertyIsEnumerable", "__defineGetter__", "__defineSetter__", "__lookupGetter__",
    "__lookupSetter__", "__proto__"}

  /**
   * Calling the session's member `name` with argument `arg` (`Undefined` when
   * none is passed), for a shortcut name or a name the session has no member
   * for. A shortcut needs a bound model, then selects its name as the method
   * and runs; any other such name is no function of the session.
   */
  function Invoke(s: Session, name: string, arg: Value, store: Store, env: Env): (r: Step)
    requires name in Shortcuts || name !in SessionMembers
    ensures name !in Shortcuts ==> r == Step(Raised(NotAFunction(name)), s, store, [])
    ensures name in Shortcuts && s.md.None? ==>
              r.outcome == Rejected(ModelNotSet) && r.session == s && r.store == store && r.trace == []
    ensures name in Shortcuts && s.md.Some? ==>
              && r.session == s.(methodName := name, options := Or(arg, s.options), cacheHit := r.session.cacheHit)
              && (!r.outcome.Resolved? ==> r.store == store)
    ensures Wf(s) ==> Wf(r.session)
  {
    if name !in Shortcuts then Step(Raised(NotAFunction(name)), s, store, [])
    else if s.md.None? then Step(Rejected(ModelNotSet), s, store, [])
    else Run(s.(methodName := name), arg, store, env)
  }
}

=== FILE: normalize.dfy ===
/**
 * The result normalisation both database paths apply before caching: a
 * single model instance becomes its plain form; absent values, arrays and
 * every other value pass through unchanged. The source tells an instance
 * apart by its `toString()`; here the `Instance` variant carries that tag.
 */
module Normalizer {
  import opened Values

  function Normalize(r: Value): (n: Value)
    ensures r.Instance? ==> n == r.plain
    ensures n == r <==> !r.Instance?
  {
    if !Truthy(r) then r
    else if r.Arr? then r
    else if r.Instance? then assert r.plain < r; r.plain
    else r
  }

  /** A second normalisation changes nothing unless an instance wrapped another instance. */
  lemma NormalizeIdempotent(r: Value)
    requires r.Instance? ==> !r.plain.Instance?
    ensures Normalize(Normalize(r)) == Normalize(r)
  {
  }

  /**
   * Normalising does not change the view key derivation would take of a
   * value (`toJSON` and the replacer): an instance is already seen through its
   * plain form. The text actually cached comes from JSON.stringify without the
   * replacer, which is opaque here, so nothing follows about that text.
   */
  lemma NormalizeKeepsSerializedView(r: Value)
    ensures Replace(Normalize(r)) == Replace(r)
  {
  }
}

=== FILE: properties.dfy ===
/**
 * Properties of the cache session: key format, the hit and miss branches of
 * the read-through protocol, what each failure leaves behind, invalidation,
 * shortcut dispatch, and the scenarios the test suite exercises.
 */
module CacherProperties {
  import opened Wrappers
  import opened Values
  import opened Segments
  import opened Store
  import opened Normalizer
  import opened Cacher

  // ---------------------------------------------------------------- key derivation

  /** A raw-query key splits back into prefix, `__raw__`, `query` and the digest of the query. */
  lemma KeySegmentsRaw(s: Session, c: Codec)
    requires RawActive(s) && NoSep(s.prefix) && HexDigests(c)
    ensures Key(s, c).Success?
    ensures Split(Key(s, c).value) == [s.prefix, "__raw__", "query", c.sha1(s.q.value)]
  {
    var parts := RawParts(s, c);
    assert NoSep(parts[3]);
    assert AllNoSep(parts);
    SplitJoin(parts);
  }

  /** A model key splits back into prefix, model name, method and the digest of the serialised options. */
  lemma KeySegmentsModel(s: Session, c: Codec, t: string)
    requires !RawActive(s) && c.stringify(Replace(s.options)) == Some(t)
    requires NoSep(s.prefix) && NoSep(NameText(s.modelName)) && NoSep(s.methodName) && HexDigests(c)
    ensures Key(s, c).Success?
    ensures Split(Key(s, c).value) == [s.prefix, NameText(s.modelName), s.methodName, c.sha1(t)]
  {
    var parts := ModelParts(s, c, t);
    assert NoSep(parts[3]);
    assert AllNoSep(parts);
    SplitJoin(parts);
  }

  /**
   * A raw-query key never equals a model key unless the model is literally
   * named `__raw__`, whatever ':' the prefixes hold.
   */
  lemma RawAndModelKeysDiffer(s1: Session, s2: Session, c: Codec)
    requires RawActive(s1) && !RawActive(s2) && Key(s2, c).Success?
    requires NoSep(NameText(s2.modelName)) && NoSep(s2.methodName)
    requires HexDigests(c)
    requires NameText(s2.modelName) != "__raw__"
    ensures Key(s1, c).value != Key(s2, c).value
  {
    var p1 := RawParts(s1, c);
    var p2 := ModelParts(s2, c, c.stringify(Replace(s2.options)).value);
    assert NoSep(p1[3]) && NoSep(p2[3]);
    if Join(p1) == Join(p2) {
      JoinFourPeel(p1[0], p1[1], p1[2], p1[3], p2[0], p2[1], p2[2], p2[3]);
    }
  }

  /**
   * Equal model keys come from the same prefix, model name and method, and
   * equal digests, whatever ':' the prefixes hold.
   */
  lemma ModelKeysInjective(s1: Session, s2: Session, c: Codec)
    requires !RawActive(s1) && !RawActive(s2) && Key(s1, c).Success? && Key(s2, c).Success?
    requires NoSep(NameText(s1.modelName)) && NoSep(s1.methodName)
    requires NoSep(NameText(s2.modelName)) && NoSep(s2.methodName)
    requires HexDigests(c)
    requires Key(s1, c) == Key(s2, c)
    ensures s1.prefix == s2.prefix && NameText(s1.modelName) == NameText(s2.modelName)
    ensures s1.methodName == s2.methodName
    ensures c.sha1(c.stringify(Replace(s1.options)).value) == c.sha1(c.stringify(Replace(s2.options)).value)
  {
    var p1 := ModelParts(s1, c, c.stringify(Replace(s1.options)).value);
    var p2 := ModelParts(s2, c, c.stringify(Replace(s2.options)).value);
    assert NoSep(p1[3]) && NoSep(p2[3]);
    JoinFourPeel(p1[0], p1[1], p1[2], p1[3], p2[0], p2[1], p2[2], p2[3]);
  }

  /**
   * The key is a function of the call's identity alone: prefix and raw query,
   * and, without a raw query, model name, method and the options as the
   * replacer rewrites them. TTL, the hit flag and the bound model play no
   * part, and options that differ only in which model class objects they hold
   * (under equal names) give the same key.
   */
  lemma KeyDependsOnlyOnIdentity(s1: Session, s2: Session, c: Codec)
    requires s1.prefix == s2.prefix && s1.q == s2.q
    requires !RawActive(s1) ==>
               s1.modelName == s2.modelName && s1.methodName == s2.methodName
               && Replace(s1.options) == Replace(s2.options)
    ensures Key(s1, c) == Key(s2, c)
  {
  }

  /** Once a non-empty raw query is set, every later `run` reads the raw-query key. */
  lemma QueryTakesPriority(s: Session, q: string, store: Store, env: Env,
                           opts: Value, store2: Store, env2: Env)
    requires q != ""
    ensures var s' := Query(s, q, store, env).session;
            var r := Run(s', opts, store2, env2);
            |r.trace| >= 1 && r.trace[0] == Get(Join([s.prefix, "__raw__", "query", env2.codec.sha1(q)]))
  {
  }

  // ---------------------------------------------------------------- hits

  /**
   * A hit (the GET returns non-empty text) on either path: the decoded text
   * is the result, the flag is set even when decoding fails, the database is
   * not consulted and the store is not written.
   */
  lemma HitServesStoredValue(s: Session, store: Store, env: Env, path: Path, k: string)
    requires Key(s, env.codec) == Success(k)
    requires env.faults.getError.None?
    requires !Miss(store, k)
    ensures var r := ReadThrough(s, store, env, path);
            && r.session == s.(cacheHit := true)
            && r.store == store
            && r.trace == [Get(k)]
            && !Queries(r.trace)
            && r.outcome == (match env.codec.parse(store[k])
                             case Some(v) => Resolved(v)
                             case None => Rejected(DecodeError))
  {
  }

  // ---------------------------------------------------------------- misses

  /**
   * A model-path miss whose query succeeds: the normalised answer is cached
   * under the key (with an `EX` expiry exactly when the TTL is nonzero),
   * returned, and the flag reads false.
   */
  lemma ModelMissPopulates(s: Session, store: Store, env: Env, k: string, m: string, raw: Value, text: string)
    requires Key(s, env.codec) == Success(k)
    requires env.faults.getError.None? && env.faults.setError.None?
    requires Miss(store, k)
    requires s.md == Some(m) && env.db.has(m, s.methodName)
    requires env.db.call(m, s.methodName, s.options) == Success(raw)
    requires env.codec.encode(Normalize(raw)) == Some(text) && s.seconds >= 0
    ensures var r := FetchFromCache(s, store, env);
            && r.outcome == Resolved(Normalize(raw))
            && r.store == store[k := text]
            && r.session == s.(cacheHit := false)
            && r.trace == [Get(k), CallModel(m, s.methodName, s.options), Set(SetArgs(k, text, s.seconds))]
            && ParseSet(r.trace[2].args) == Some(SetCommand(k, text, if s.seconds != 0 then Some(s.seconds) else None))
  {
  }

  /** A raw-path miss caches and returns the normalised rows, but leaves the flag as it was. */
  lemma RawMissPopulates(s: Session, store: Store, env: Env, k: string, raw: Value, text: string)
    requires Key(s, env.codec) == Success(k)
    requires env.faults.getError.None? && env.faults.setError.None?
    requires Miss(store, k)
    requires env.db.query(s.q) == Success(raw)
    requires env.codec.encode(Normalize(raw)) == Some(text) && s.seconds >= 0
    ensures var r := RawFromCache(s, store, env);
            && r.outcome == Resolved(Normalize(raw))
            && r.store == store[k := text]
            && r.session == s
            && r.trace == [Get(k), RawQuery(s.q), Set(SetArgs(k, text, s.seconds))]
  {
  }

  /**
   * Given the same answer, the raw and the model path resolve, fail and write
   * alike. The source has two identical copies of this code; the model writes
   * it once, as `Settle`, so this holds by construction and records that the
   * copies were merged.
   */
  lemma PathsNormaliseAlike(s: Session, store: Store, env: Env, k: string, m: string)
    requires s.md == Some(m) && env.db.has(m, s.methodName)
    requires env.db.call(m, s.methodName, s.options) == env.db.query(s.q)
    ensures var a := FetchFromDatabase(s, store, k, env);
            var b := RawFromDatabase(s, store, k, env);
            a.outcome == b.outcome && a.store == b.store && a.trace[1..] == b.trace[1..]
  {
  }

  // ---------------------------------------------------------------- failures

  /** A GET error fails the call before the database is consulted, and changes nothing. */
  lemma GetErrorFails(s: Session, store: Store, env: Env, path: Path, e: string)
    requires Key(s, env.codec).Success? && env.faults.getError == Some(e)
    ensures var r := ReadThrough(s, store, env, path);
            && r.outcome == Rejected(StoreError(e))
            && r.session == s && r.store == store && !Queries(r.trace)
  {
  }

  /** A miss on a model without the selected method fails with `Invalid method - <name>`. */
  lemma InvalidMethodFails(s: Session, store: Store, env: Env, k: string, m: string)
    requires Key(s, env.codec) == Success(k) && env.faults.getError.None? && Miss(store, k)
    requires s.md == Some(m) && !env.db.has(m, s.methodName)
    ensures var r := FetchFromCache(s, store, env);
            && r.outcome == Rejected(InvalidMethod(s.methodName))
            && Message(r.outcome.error) == "Invalid method - " + s.methodName
            && r.store == store && !Queries(r.trace) && !r.session.cacheHit
  {
  }

  /** A failing query fails the call and caches nothing. */
  lemma QueryErrorDoesNotPopulate(s: Session, store: Store, env: Env, path: Path, k: string, e: string)
    requires Key(s, env.codec) == Success(k) && env.faults.getError.None? && Miss(store, k)
    requires path == ModelPath ==>
               s.md.Some? && env.db.has(s.md.value, s.methodName)
               && env.db.call(s.md.value, s.methodName, s.options) == Failure(e)
    requires path == RawPath ==> env.db.query(s.q) == Failure(e)
    ensures var r := ReadThrough(s, store, env, path);
            r.outcome == Rejected(QueryError(e)) && r.store == store
  {
  }

  /** A result JSON.stringify cannot encode fails the call before any SET is sent. */
  lemma EncodeErrorPrecedesWrite(s: Session, store: Store, env: Env, path: Path, k: string, raw: Value)
    requires Key(s, env.codec) == Success(k) && env.faults.getError.None? && Miss(store, k)
    requires path == ModelPath ==>
               s.md.Some? && env.db.has(s.md.value, s.methodName)
               && env.db.call(s.md.value, s.methodName, s.options) == Success(raw)
    requires path == RawPath ==> env.db.query(s.q) == Success(raw)
    requires env.codec.encode(Normalize(raw)).None?
    ensures var r := ReadThrough(s, store, env, path);
            && r.outcome == Rejected(SerializeError) && r.store == store
            && forall i :: 0 <= i < |r.trace| ==> !r.trace[i].Set?
  {
  }

  /** A SET error fails the whole call although the query succeeded. */
  lemma SetErrorFailsCall(s: Session, store: Store, env: Env, path: Path, k: string, raw: Value, e: string)
    requires Key(s, env.codec) == Success(k) && env.faults.getError.None? && Miss(store, k)
    requires path == ModelPath ==>
               s.md.Some? && env.db.has(s.md.value, s.methodName)
               && env.db.call(s.md.value, s.methodName, s.options) == Success(raw)
    requires path == RawPath ==> env.db.query(s.q) == Success(raw)
    requires env.codec.encode(Normalize(raw)).Some? && env.faults.setError == Some(e)
    ensures var r := ReadThrough(s, store, env, path);
            r.outcome == Rejected(StoreError(e)) && r.store == store && Queries(r.trace)
  {
    var r := ReadThrough(s, store, env, path);
    assert IsQuery(r.trace[1]);
  }

  /**
   * A miss whose query succeeds with a negative TTL: `setCache` sends
   * `EX <ttl>`, redis refuses it, and the call fails with nothing cached.
   */
  lemma NegativeTtlRejected(s: Session, store: Store, env: Env, path: Path, k: string, raw: Value)
    requires Key(s, env.codec) == Success(k) && env.faults.getError.None? && Miss(store, k)
    requires path == ModelPath ==>
               s.md.Some? && env.db.has(s.md.value, s.methodName)
               && env.db.call(s.md.value, s.methodName, s.options) == Success(raw)
    requires path == RawPath ==> env.db.query(s.q) == Success(raw)
    requires env.codec.encode(Normalize(raw)).Some? && env.faults.setError.None? && s.seconds < 0
    ensures var r := ReadThrough(s, store, env, path);
            r.outcome == Rejected(StoreError(InvalidExpire)) && r.store == store && Queries(r.trace)
  {
    var r := ReadThrough(s, store, env, path);
    assert IsQuery(r.trace[1]);
  }

  /**
   * On a well-formed session the entry a model-path miss caches was produced
   * by the model its key names: the queried model is the key's second segment.
   */
  lemma KeyNamesQueriedModel(s: Session, store: Store, env: Env, k: string, t: string)
    requires Wf(s) && !RawActive(s) && s.md.Some?
    requires env.codec.stringify(Replace(s.options)) == Some(t) && k == Key(s, env.codec).value
    requires NoSep(s.prefix) && NoSep(NameText(s.modelName)) && NoSep(s.methodName) && HexDigests(env.codec)
    requires env.faults.getError.None? && Miss(store, k) && env.db.has(s.md.value, s.methodName)
    ensures var r := FetchFromCache(s, store, env);
            && |Split(k)| == 4 && |r.trace| >= 2 && r.trace[1].CallModel?
            && r.trace[1].model == Split(k)[1] && r.trace[1].methodName == Split(k)[2]
  {
    KeySegmentsModel(s, env.codec, t);
  }

  /**
   * `run` on a miss with no model bound: reading the method of an undefined
   * model throws inside the GET callback, so the promise never settles; the
   * flag is not reset and nothing is written.
   */
  lemma UnboundRunRaises(s: Session, store: Store, env: Env, k: string)
    requires Key(s, env.codec) == Success(k) && env.faults.getError.None? && Miss(store, k)
    requires s.md.None?
    ensures var r := FetchFromCache(s, store, env);
            r.outcome == Raised(NoModelBound) && r.session == s && r.store == store && !Queries(r.trace)
  {
  }

  // ---------------------------------------------------------------- the hit flag

  /** With a model bound and a successful GET, the model path leaves the flag saying whether it hit. */
  lemma ModelFlagReflectsRead(s: Session, store: Store, env: Env, k: string)
    requires Key(s, env.codec) == Success(k) && env.faults.getError.None? && s.md.Some?
    ensures FetchFromCache(s, store, env).session.cacheHit == !Miss(store, k)
  {
  }

  /** A raw miss after an earlier hit still reports a hit. */
  lemma RawMissKeepsStaleFlag(s: Session, store: Store, env: Env, k: string)
    requires Key(s, env.codec) == Success(k) && env.faults.getError.None? && Miss(store, k)
    requires s.cacheHit
    ensures RawFromCache(s, store, env).session.cacheHit
  {
  }

  // ---------------------------------------------------------------- invalidation

  /** `clearCache` removes exactly the derived key; an absent key is no error. */
  lemma ClearCacheRemovesKey(s: Session, opts: Value, store: Store, env: Env, k: string)
    requires Key(s.(options := Or(opts, s.options)), env.codec) == Success(k)
    requires env.faults.delError.None?
    ensures var r := ClearCache(s, opts, store, env);
            && r.outcome == Resolved(Undefined)
            && k !in r.store
            && (forall k' :: k' in store && k' != k ==> k' in r.store && r.store[k'] == store[k'])
            && (forall k' :: k' in r.store ==> k' in store)
            && r.trace == [Del(k)]
  {
  }

  /** `clearCache` keeps the options unless given truthy ones. */
  lemma ClearCacheOptions(s: Session, opts: Value, store: Store, env: Env)
    ensures var r := ClearCache(s, opts, store, env);
            && (Truthy(opts) ==> r.session.options == opts)
            && (!Truthy(opts) ==> r.session == s)
  {
  }

  /** Clearing twice succeeds twice and the second call changes nothing. */
  lemma ClearCacheIdempotent(s: Session, opts: Value, store: Store, env: Env)
    requires env.faults.delError.None?
    requires ClearCache(s, opts, store, env).outcome.Resolved?
    ensures var r1 := ClearCache(s, opts, store, env);
            var r2 := ClearCache(r1.session, Undefined, r1.store, env);
            r2.outcome == Resolved(Undefined) && r2.store == r1.store && r2.session == r1.session
  {
    var s' := s.(options := Or(opts, s.options));
    var k := Key(s', env.codec).value;
    var r1 := ClearCache(s, opts, store, env);
    assert r1.session == s';
    assert r1.store == store - {k};
    assert r1.store - {k} == r1.store;
  }

  /** A raw query cached by `query(q)` is gone after `clearCache()` on the same session. */
  lemma ClearAfterQuery(s: Session, q: string, store: Store, env1: Env, env2: Env)
    requires q != "" && env2.faults.delError.None? && env2.codec == env1.codec
    ensures var r1 := Query(s, q, store, env1);
            var r2 := ClearCache(r1.session, Undefined, r1.store, env2);
            r2.outcome == Resolved(Undefined)
            && Join([s.prefix, "__raw__", "query", env1.codec.sha1(q)]) !in r2.store
  {
  }

  // ---------------------------------------------------------------- shortcuts

  /** A shortcut with no model bound fails with `Model not set` and touches nothing. */
  lemma ShortcutWithoutModel(s: Session, name: string, arg: Value, store: Store, env: Env)
    requires name in Shortcuts && s.md.None?
    ensures var r := Invoke(s, name, arg, store, env);
            && r.outcome == Rejected(ModelNotSet)
            && Message(r.outcome.error) == "Model not set"
            && r.session == s && r.store == store && r.trace == []
  {
  }

  /** With a model bound, a shortcut selects its own name as the method and runs with its argument. */
  lemma ShortcutRuns(s: Session, name: string, arg: Value, store: Store, env: Env)
    requires name in Shortcuts && s.md.Some?
    ensures var r := Invoke(s, name, arg, store, env);
            && r == Run(s.(methodName := name), arg, store, env)
            && r.session.methodName == name
            && r.session.options == Or(arg, s.options)
  {
  }

  /** A name that is neither a shortcut nor another member of a session is no function of it. */
  lemma UnknownShortcut(s: Session, name: string, arg: Value, store: Store, env: Env)
    requires name !in Shortcuts && name !in SessionMembers
    ensures var r := Invoke(s, name, arg, store, env);
            r.outcome == Raised(NotAFunction(name)) && r.session == s && r.store == store && r.trace == []
  {
  }

  /** The ten shortcut names contain no key separator. */
  lemma ShortcutsHaveNoSep(i: nat)
    requires i < |Shortcuts|
    ensures NoSep(Shortcuts[i])
  {
    var n := Shortcuts[i];
    if n == "find" || n == "findOne" || n == "findAll" || n == "all" || n == "min" || n == "max" {
    } else if n == "findAndCount" || n == "findAndCountAll" || n == "sum" || n == "count" {
    }
  }

  /**
   * Without a raw query, the key a shortcut GETs splits back into the prefix,
   * the model name, the shortcut's own name and the digest of the options.
   */
  lemma ShortcutKeySegments(s: Session, i: nat, arg: Value, store: Store, env: Env, t: string)
    requires i < |Shortcuts|
    requires s.md.Some? && !RawActive(s)
    requires env.codec.stringify(Replace(Or(arg, s.options))) == Some(t)
    requires NoSep(s.prefix) && NoSep(NameText(s.modelName)) && HexDigests(env.codec)
    ensures var r := Invoke(s, Shortcuts[i], arg, store, env);
            && |r.trace| >= 1 && r.trace[0].Get?
            && Split(r.trace[0].key) == [s.prefix, NameText(s.modelName), Shortcuts[i], env.codec.sha1(t)]
  {
    ShortcutsHaveNoSep(i);
    KeySegmentsModel(s.(methodName := Shortcuts[i], options := Or(arg, s.options)), env.codec, t);
  }

  /**
   * Without a raw query, two different shortcuts on the same session GET two
   * different keys, so one method's cached result is never served to another.
   */
  lemma ShortcutsReadDistinctKeys(s: Session, i: nat, j: nat, arg: Value, store: Store, env: Env)
    requires i < |Shortcuts| && j < |Shortcuts| && Shortcuts[i] != Shortcuts[j]
    requires s.md.Some? && !RawActive(s)
    requires env.codec.stringify(Replace(Or(arg, s.options))).Some?
    ensures var r1 := Invoke(s, Shortcuts[i], arg, store, env);
            var r2 := Invoke(s, Shortcuts[j], arg, store, env);
            |r1.trace| >= 1 && |r2.trace| >= 1 && r1.trace[0] != r2.trace[0]
  {
    var o := Or(arg, s.options);
    var h := env.codec.sha1(env.codec.stringify(Replace(o)).value);
    JoinThirdDistinct(s.prefix, NameText(s.modelName), Shortcuts[i], Shortcuts[j], h);
  }

  /** `run()` without options reads through with the options already set. */
  lemma RunKeepsOptions(s: Session, store: Store, env: Env)
    ensures Run(s, Undefined, store, env) == FetchFromCache(s, store, env)
  {
    assert s.(options := Or(Undefined, s.options)) == s;
  }

  // ---------------------------------------------------------------- invariants and scenarios

  /** A fresh session has no hit, no model and no raw query, and every operation keeps it well formed. */
  lemma OperationsPreserveWf(s: Session, name: string, member: string, db: Db, p: string, ttl: int,
                             v: Value, q: string, store: Store, env: Env)
    requires Wf(s)
    requires member in Shortcuts || member !in SessionMembers
    ensures Wf(New()) && !New().cacheHit && !RawActive(New())
    ensures Wf(SelectModel(s, name, db)) && Wf(SetPrefix(s, p)) && Wf(SetTtl(s, ttl))
    ensures Wf(Run(s, v, store, env).session) && Wf(Query(s, q, store, env).session)
    ensures Wf(ClearCache(s, v, store, env).session) && Wf(Invoke(s, member, v, store, env).session)
  {
  }

  /**
   * Two identical calls, the first against an empty slot: the first misses and
   * reports no hit, the second (made with the same configuration) reports a
   * hit, returns the same value and does not reach the database. This holds
   * when the normalised result is plain data (no instance left inside an array
   * or object) and JSON.parse gives back what JSON.stringify produced for it;
   * a `null` "not found" answer is cached and served like any other.
   */
  lemma MissThenHit(s: Session, store: Store, env1: Env, env2: Env, k: string, m: string,
                    raw: Value, text: string)
    requires Key(s, env1.codec) == Success(k)
    requires env1.faults.getError.None? && env1.faults.setError.None? && env2.faults.getError.None?
    requires env2.codec == env1.codec
    requires Miss(store, k)
    requires s.md == Some(m) && env1.db.has(m, s.methodName)
    requires env1.db.call(m, s.methodName, s.options) == Success(raw)
    requires env1.codec.encode(Normalize(raw)) == Some(text) && text != "" && s.seconds >= 0
    requires IsPlain(Normalize(raw))
    requires env1.codec.parse(text) == Some(Normalize(raw))
    ensures var r1 := FetchFromCache(s, store, env1);
            var r2 := FetchFromCache(s, r1.store, env2);
            && !r1.session.cacheHit && r2.session.cacheHit
            && r1.outcome == Resolved(Normalize(raw)) && r2.outcome == r1.outcome
            && Queries(r1.trace) && !Queries(r2.trace) && r2.store == r1.store
  {
    ModelMissPopulates(s, store, env1, k, m, raw, text);
    var r1 := FetchFromCache(s, store, env1);
    assert IsQuery(r1.trace[1]);
    HitServesStoredValue(s, r1.store, env2, ModelPath, k);
  }
  /** JSON.parse only ever gives back plain data: no model class and no instance. */
  ghost predicate ParsesPlain(c: Codec) {
    forall t :: c.parse(t).Some? ==> IsPlain(c.parse(t).value)
  }

  /**
   * A result that still holds instances after normalisation (the array
   * `findAll` returns) is returned live on the miss, but the identical call
   * that hits next returns JSON.parse's plain data (or fails to decode), so
   * the two answers differ.
   */
  lemma MissAndHitDiffer(s: Session, store: Store, env1: Env, env2: Env, k: string, m: string,
                         raw: Value, text: string)
    requires Key(s, env1.codec) == Success(k)
    requires env1.faults.getError.None? && env1.faults.setError.None? && env2.faults.getError.None?
    requires env2.codec == env1.codec && ParsesPlain(env2.codec)
    requires Miss(store, k)
    requires s.md == Some(m) && env1.db.has(m, s.methodName)
    requires env1.db.call(m, s.methodName, s.options) == Success(raw)
    requires env1.codec.encode(Normalize(raw)) == Some(text) && text != "" && s.seconds >= 0
    requires !IsPlain(Normalize(raw))
    ensures var r1 := FetchFromCache(s, store, env1);
            var r2 := FetchFromCache(s, r1.store, env2);
            && r1.outcome == Resolved(Normalize(raw)) && r2.session.cacheHit
            && r2.outcome != r1.outcome
  {
    ModelMissPopulates(s, store, env1, k, m, raw, text);
    var r1 := FetchFromCache(s, store, env1);
    HitServesStoredValue(s, r1.store, env2, ModelPath, k);
    assert r1.store[k] == text;
  }
}

=== FILE: segments.dfy ===
/**
 * `Array.prototype.join(':')`, which assembles cache keys, and the splitting
 * of a key back into its segments, which shows that segments free of ':'
 * can be recovered from the key.
 */
module Segments {

  const Sep: char := ':'

  predicate NoSep(s: string) {
    forall i :: 0 <= i < |s| ==> s[i] != Sep
  }

  predicate AllNoSep(parts: seq<string>) {
    forall i :: 0 <= i < |parts| ==> NoSep(parts[i])
  }

  /** `parts.join(':')`: "" for no parts, the parts with ':' between them otherwise. */
  function Join(parts: seq<string>): string {
    if |parts| == 0 then ""
    else if |parts| == 1 then parts[0]
    else parts[0] + [Sep] + Join(parts[1..])
  }

  /** `s.split(':')`: the maximal ':'-free pieces of s, in order. */
  function Split(s: string): (parts: seq<string>)
    ensures |parts| >= 1
    ensures AllNoSep(parts)
  {
    if |s| == 0 then [""]
    else
      var rest := Split(s[1..]);
      if s[0] == Sep then [""] + rest
      else [[s[0]] + rest[0]] + rest[1..]
  }

  lemma {:induction false} SplitSegment(a: string)
    requires NoSep(a)
    ensures Split(a) == [a]
  {
    if |a| > 0 {
      SplitSegment(a[1..]);
      assert [a[0]] + a[1..] == a;
    }
  }

  lemma {:induction false} SplitAfterSegment(a: string, t: string)
    requires NoSep(a)
    ensures Split(a + [Sep] + t) == [a] + Split(t)
  {
    var s := a + [Sep] + t;
    if |a| == 0 {
      assert s == [Sep] + t;
      assert s[1..] == t;
    } else {
      assert s[1..] == a[1..] + [Sep] + t;
      SplitAfterSegment(a[1..], t);
      assert [a[0]] + a[1..] == a;
    }
  }

  /** Splitting a join of ':'-free segments gives the segments back. */
  lemma {:induction false} SplitJoin(parts: seq<string>)
    requires |parts| >= 1
    requires AllNoSep(parts)
    ensures Split(Join(parts)) == parts
  {
    if |parts| == 1 {
      SplitSegment(parts[0]);
    } else {
      SplitAfterSegment(parts[0], Join(parts[1..]));
      SplitJoin(parts[1..]);
      assert [parts[0]] + parts[1..] == parts;
    }
  }

  /** Equal joins of ':'-free segments come from equal segment lists. */
  lemma JoinInjective(p1: seq<string>, p2: seq<string>)
    requires |p1| >= 1 && |p2| >= 1
    requires AllNoSep(p1) && AllNoSep(p2)
    requires Join(p1) == Join(p2)
    ensures p1 == p2
  {
    SplitJoin(p1);
    SplitJoin(p2);
  }

  /** A four-segment join, written out. */
  lemma JoinFour(a: string, b: string, c: string, d: string)
    ensures Join([a, b, c, d]) == (a + [Sep] + b + [Sep]) + c + ([Sep] + d)
  {
    assert [a, b, c, d][1..] == [b, c, d];
    assert [b, c, d][1..] == [c, d];
    assert [c, d][1..] == [d];
    assert Join([c, d]) == c + [Sep] + d;
    assert Join([b, c, d]) == b + [Sep] + (c + [Sep] + d);
    assert Join([a, b, c, d]) == a + [Sep] + (b + [Sep] + (c + [Sep] + d));
  }

  /** Equal four-segment joins that agree in every other segment agree in the third. */
  lemma JoinThirdCancels(a: string, b: string, x: string, y: string, d: string)
    requires Join([a, b, x, d]) == Join([a, b, y, d])
    ensures x == y
  {
    JoinFour(a, b, x, d);
    JoinFour(a, b, y, d);
    var head := a + [Sep] + b + [Sep];
    var u := head + x + ([Sep] + d);
    var w := head + y + ([Sep] + d);
    assert u == w;
    assert |x| == |y|;
    assert u[|head|..|head| + |x|] == x;
    assert w[|head|..|head| + |y|] == y;
  }

  /**
   * Four-segment joins that agree in every segment but the third are equal
   * exactly when the third segments are, whatever ':' the segments hold.
   */
  lemma JoinThirdDistinct(a: string, b: string, x: string, y: string, d: string)
    ensures Join([a, b, x, d]) == Join([a, b, y, d]) <==> x == y
  {
    if Join([a, b, x, d]) == Join([a, b, y, d]) {
      JoinThirdCancels(a, b, x, y, d);
    }
  }
  /** Past the last ':' written by a join, a ':'-free segment holds no further ':'. */
  lemma LastSepAt(x: string, t: string, j: int)
    requires NoSep(t) && |x| < j < |x| + 1 + |t|
    ensures (x + [Sep] + t)[j] != Sep
  {
    assert (x + [Sep] + t)[j] == t[j - |x| - 1];
  }

  /** Equal strings that each end in ':' and a ':'-free segment split there alike. */
  lemma PeelLast(x: string, t: string, y: string, u: string)
    requires NoSep(t) && NoSep(u)
    requires x + [Sep] + t == y + [Sep] + u
    ensures x == y && t == u
  {
    var s := x + [Sep] + t;
    assert s[|x|] == Sep;
    assert s[|y|] == (y + [Sep] + u)[|y|];
    if |x| < |y| {
      LastSepAt(x, t, |y|);
    } else if |y| < |x| {
      LastSepAt(y, u, |x|);
    }
    assert |x| == |y|;
    assert s[..|x|] == x;
    assert (y + [Sep] + u)[..|y|] == y;
    assert s[|x| + 1..] == t;
    assert (y + [Sep] + u)[|y| + 1..] == u;
  }

  /**
   * Equal four-segment joins whose last three segments are ':'-free agree in
   * every segment, whatever ':' the first segments hold.
   */
  lemma JoinFourPeel(a: string, b: string, c: string, d: string,
                     a': string, b': string, c': string, d': string)
    requires NoSep(b) && NoSep(c) && NoSep(d) && NoSep(b') && NoSep(c') && NoSep(d')
    requires Join([a, b, c, d]) == Join([a', b', c', d'])
    ensures a == a' && b == b' && c == c' && d == d'
  {
    JoinFour(a, b, c, d);
    JoinFour(a', b', c', d');
    assert Join([a, b, c, d]) == ((a + [Sep] + b) + [Sep] + c) + [Sep] + d;
    assert Join([a', b', c', d']) == ((a' + [Sep] + b') + [Sep] + c') + [Sep] + d';
    PeelLast((a + [Sep] + b) + [Sep] + c, d, (a' + [Sep] + b') + [Sep] + c', d');
    PeelLast(a + [Sep] + b, c, a' + [Sep] + b', c');
    PeelLast(a, b, a', b');
  }
}

=== FILE: store.dfy ===
/**
 * The redis side of the cache: the store as a map from keys to stored text,
 * the argument vector `setCache` passes to SET, and how redis reads it.
 */
module Store {
  import opened Wrappers

  type Store = map<string, string>

  /** One element of a redis command's argument vector. */
  datatype Arg = Text(s: string) | Number(n: int)

  /** A SET as redis understands it: key, value and an optional `EX` expiry in seconds. */
  datatype SetCommand = SetCommand(key: string, value: string, expiry: Option<int>)

  /** How redis reads `SET key value` and `SET key value EX seconds`. */
  function ParseSet(args: seq<Arg>): Option<SetCommand> {
    if |args| == 2 && args[0].Text? && args[1].Text? then
      Some(SetCommand(args[0].s, args[1].s, None))
    else if |args| == 4 && args[0].Text? && args[1].Text? && args[2] == Text("EX") && args[3].Number? then
      Some(SetCommand(args[0].s, args[1].s, Some(args[3].n)))
    else None
  }

  /**
   * The argument vector `setCache` builds: key and text, followed by
   * `'EX', ttl` when ttl is truthy (a nonzero number).
   */
  function SetArgs(key: string, text: string, ttl: int): (args: seq<Arg>)
    ensures ParseSet(args) == Some(SetCommand(key, text, if ttl != 0 then Some(ttl) else None))
  {
    [Text(key), Text(text)] + (if ttl != 0 then [Text("EX"), Number(ttl)] else [])
  }

  /** The reply redis gives to a SET that names an expiry of zero or less seconds. */
  const InvalidExpire := "ERR invalid expire time in 'set' command"

  /** The reply redis gives to an argument vector that is no SET it knows. */
  const SyntaxError := "ERR syntax error"

  /**
   * What redis does with a SET argument vector: it refuses one it cannot read
   * and one whose `EX` is not positive, and otherwise stores the value under
   * the key (expiry over time is not modelled).
   */
  function ApplySet(store: Store, args: seq<Arg>): (r: Result<Store, string>)
    ensures r.Success? <==> ParseSet(args).Some? && (ParseSet(args).value.expiry.Some? ==> ParseSet(args).value.expiry.value > 0)
    ensures r.Success? ==> r.value == store[ParseSet(args).value.key := ParseSet(args).value.value]
  {
    match ParseSet(args)
    case None => Failure(SyntaxError)
    case Some(c) =>
      if c.expiry.Some? && c.expiry.value <= 0 then Failure(InvalidExpire)
      else Success(store[c.key := c.value])
  }

  /** `!res` on a GET reply: a missing key or an empty string is a miss. */
  predicate Miss(store: Store, key: string) {
    key !in store || store[key] == ""
  }
}

=== FILE: values.dfy ===
/**
 * The JavaScript values that flow through the cache: query options, database
 * results and decoded cache entries. Two variants stand for live Sequelize
 * objects: `ModelRef` for a model class (the objects `jsonReplacer` detects by
 * their `DAO` or `sequelize` property) and `Instance` for a fetched row.
 */
module Values {

  datatype Value =
    | Undefined
    | Null
    | Bool(b: bool)
    | Num(n: int)
    | Str(s: string)
    | Arr(items: seq<Value>)
    | Obj(fields: seq<Field>)        // properties in insertion order
    | ModelRef(name: string)         // a model class; "" when it has no name
    | Instance(plain: Value)         // a model instance and its `get({plain: true})` form

  datatype Field = Field(key: string, val: Value)

  /** JavaScript truthiness (numbers are integers here, so NaN does not arise). */
  predicate Truthy(v: Value) {
    match v
    case Undefined => false
    case Null => false
    case Bool(b) => b
    case Num(n) => n != 0
    case Str(s) => s != ""
    case _ => true
  }

  /** `a || b` */
  function Or(a: Value, b: Value): Value {
    if Truthy(a) then a else b
  }

  /** A value with no live Sequelize object anywhere inside it. */
  predicate IsPlain(v: Value) {
    match v
    case ModelRef(_) => false
    case Instance(_) => false
    case Arr(items) => forall i :: 0 <= i < |items| ==> IsPlain(items[i])
    case Obj(fields) => forall i :: 0 <= i < |fields| ==> IsPlain(fields[i].val)
    case _ => true
  }

  /**
   * What the serializer of the key derivation sees after `jsonReplacer` has
   * run on every property: an instance is first turned into its plain form by
   * its `toJSON`, and a model class becomes its name.
   */
  function Replace(v: Value): (r: Value)
    ensures v.ModelRef? ==> r == Str(v.name)
    ensures v.Arr? ==> r.Arr? && |r.items| == |v.items|
    ensures v.Obj? ==> r.Obj? && |r.fields| == |v.fields|
                       && forall i :: 0 <= i < |v.fields| ==> r.fields[i].key == v.fields[i].key
    ensures !v.Arr? && !v.Obj? && !v.ModelRef? && !v.Instance? ==> r == v
  {
    match v
    case ModelRef(n) => Str(n)
    case Instance(p) => Replace(p)
    case Arr(items) => Arr(seq(|items|, i requires 0 <= i < |items| => Replace(items[i])))
    case Obj(fields) =>
      Obj(seq(|fields|, i requires 0 <= i < |fields| => Field(fields[i].key, Replace(fields[i].val))))
    case _ => v
  }

  /** Nothing the replacer hands to the serializer is a live Sequelize object. */
  lemma {:induction false} ReplaceIsPlain(v: Value)
    ensures IsPlain(Replace(v))
  {
    match v
    case ModelRef(n) =>
    case Instance(p) => ReplaceIsPlain(p);
    case Arr(items) =>
      forall i | 0 <= i < |items| ensures IsPlain(Replace(items[i])) {
        ReplaceIsPlain(items[i]);
      }
    case Obj(fields) =>
      forall i | 0 <= i < |fields| ensures IsPlain(Replace(fields[i].val)) {
        ReplaceIsPlain(fields[i].val);
      }
    case _ =>
  }

  /** The replacer leaves options without model classes or instances exactly as they are. */
  lemma {:induction false} ReplaceKeepsPlain(v: Value)
    requires IsPlain(v)
    ensures Replace(v) == v
  {
    match v
    case Arr(items) =>
      forall i | 0 <= i < |items| ensures Replace(items[i]) == items[i] {
        ReplaceKeepsPlain(items[i]);
      }
      assert Replace(v).items == items;
    case Obj(fields) =>
      forall i | 0 <= i < |fields| ensures Replace(fields[i].val) == fields[i].val {
        ReplaceKeepsPlain(fields[i].val);
      }
      assert Replace(v).fields == fields;
    case _ =>
  }

  /** Replacing twice is replacing once. */
  lemma ReplaceIdempotent(v: Value)
    ensures Replace(Replace(v)) == Replace(v)
  {
    ReplaceIsPlain(v);
    ReplaceKeepsPlain(Replace(v));
  }
}

=== FILE: wrappers.dfy ===
/** Failure-carrying datatypes shared by the cache model. */
module Wrappers {

  /** A value that may be missing, as `undefined`/`null` or an exception is in the source. */
  datatype Option<+T> = None | Some(value: T)

  /** The outcome of a step that can fail with an error of type E. */
  datatype Result<+R, +E> = Success(value: R) | Failure(error: E)
}
